=== FILE: README.md ===
# overlord supervision core in Dafny

This project models the core of `overlord`, a small Rust process supervisor.
It covers two parts:

- the per-process supervisor (`src/process.rs`): the process record,
  `define_process`, the `from_argv!` convention, and the restart-or-fail
  policy inside `launch`;
- the registry actor (`src/lib.rs`): `Overlord::new`, `spawn`, `quit`, and
  the actor's receive loop.

Threads, mutexes, channels, pipes and sleeps are abstracted away. The OS
answers are inputs to the model:

- the pid a spawn returns and the outcome of each run (`Supervisor.Run`);
- the answers of the non-blocking status query (`Polling.Poll`).

The actor's channel is a sequence of commands, and the shared list is a
sequence of records.

Modules:

- `Base`: `Option`, plus the source's integer widths as subset types
  (`u32` pids, `u64` counters and delays, `i32` exit codes).
- `Supervisor`: `Record`, `State`, `Define`, `FromArgv`, `CommandFor`,
  `Started`, `OnOutcome`, and `Supervise`, the `launch` loop as a fold over
  runs.
- `Polling`: the inner poll loop of `launch`. Each iteration hands at most
  one queued stdin message to the child's buffered stdin writer, then
  queries the child's status.
- `Registry`: `Command`, the receive loop `Receive`, and the handle
  `Overlord` with `Spawn`, `Quit` and `ActorStep`. `ActorStep` is the actor
  thread taking one command whenever it gets scheduled.

The model follows the code as written:

- `pid` is never cleared after the child exits. The record keeps the last
  pid, even when `Failed`.
- A status-query error leaves `exit_status` as it was.
- The actor's `Spawn` handler only pushes the record; it does not call
  `launch` and never changes a record's fields.
- `launch` slices `args[1..]` before every spawn, so an empty argument
  vector panics the supervisor thread before anything is spawned. The
  record's fields stay as they were, but the panic happens while the
  thread holds the record's lock, so the `Mutex` is poisoned and every
  later `lock().unwrap()` panics too.
- `restart_count += 1` cannot overflow `u64`. It only runs while
  `restart_count < max_restart_count`, and the subset type checks this.

## Model

| member | source | states |
|---|---|---|
| `Supervisor.Define` | src/process.rs:75-109 | a defined record is `Stopped`, with no exit status and no pid, 0 restarts, budget 5, and the given delay (0 when none); it satisfies the budget invariant |
| `Supervisor.FromArgv` | src/process.rs:55-72 | `argv[0]` becomes both name and path; the whole vector is kept as the argument list; cwd and delay pass through |
| `Supervisor.CommandFor` | src/process.rs:119-127 | the OS is asked to run `path` in `cwd`; the arguments it receives, prefixed by `args[0]`, are exactly the record's `args` |
| `Supervisor.Started` | src/process.rs:135-145 | a spawn sets `Running` and the new pid; the definition, count and exit status are unchanged |
| `Supervisor.OnOutcome` | src/process.rs:194-243 | `Restarting` if and only if the child exited with budget left, then the count grows by exactly 1; otherwise `Failed` with the count unchanged; a wait error always fails; an exit records its code (`None` for a signal); the budget invariant is preserved; definition and pid are untouched |
| `Supervisor.Supervise` | src/process.rs:117-246 | every spawn hands the OS exactly `CommandFor` of the record; the launch loop stops only at `Failed`, or panics before any spawn exactly when `args` is empty (record untouched); the loop fails only on a wait error or once the budget is used up, and every run before the last one ended in an exit; the last exit's code is the recorded exit status; every restart is counted, so the count equals the initial count plus the spawns (minus one when failed); the budget invariant holds throughout; at most `max - count + 1` spawns; the last pid is kept; `Stopped` and `Starting` are never reached once spawned |
| `Supervisor.EmptyArgsPanics` | src/process.rs:119-122 | with an empty argument vector, `launch` spawns nothing and leaves the record unchanged, whatever the OS would offer |
| `Supervisor.FailedIsTerminal` | src/process.rs:222-237 | once `launch` has failed the record, no further run is consumed, whatever the OS would offer |
| `Supervisor.WaitErrorStops` | src/process.rs:204-227 | a status-query error ends supervision in `Failed` (for a spawnable argument vector), at the latest at the run it happens in, regardless of remaining budget |
| `Supervisor.BudgetExhausted` | src/process.rs:230-243 | with a non-empty argument vector and only exits, the child is spawned exactly `max - count + 1` times; it ends `Failed` with `restart_count == max_restart_count` and the last exit code recorded |
| `Supervisor.ExitCodeIrrelevant` | src/process.rs:215-221 | exit code 0, a nonzero code and a signal kill lead to the same decision; only the recorded exit status differs |
| `Supervisor.DefinedSpawnBound` | src/process.rs:233-241 | a defined process is spawned at most 6 times (budget 5 plus the first run) over any run sequence |
| `Supervisor.FromArgvInvocation` | src/process.rs:121-122 | for a `from_argv!` record, the OS runs `argv[0]` with the rest of `argv` as arguments, and the record is named `argv[0]` |
| `Supervisor.FalseWithoutRetries` | src/process.rs:279-286 | `false` with budget 0: one spawn, `exit_status == Some(1)`, `Failed`, `restart_count == 0`, and later runs are ignored |
| `Polling.Monitor` | src/process.rs:149-211 | messages handed to the buffered stdin writer plus messages still queued equal the stdin queue the loop started with (FIFO, nothing lost); at most one is handed over per iteration; the loop stops at the first non-running answer and reports its outcome; otherwise it has seen only `StillRunning` |
| `Polling.MonitorStopsAtFirstFinish` | src/process.rs:194-210 | the outcome reported is the first `Finished` answer, after exactly that many iterations |
| `Registry.Receive` | src/lib.rs:44-56 | the list only grows, and its old entries are untouched; the loop reports stopped if and only if a `Quit` was received |
| `Registry.ReceiveIsFifo` | src/lib.rs:44-56 | after the loop, the list is the old list followed by the `Spawn` payloads before the first `Quit`, in submission order |
| `Registry.QuitIsFinal` | src/lib.rs:51-54 | commands after the first `Quit` are never processed |
| `Registry.New` | src/lib.rs:34-65 | a new registry has an empty list and an empty channel |
| `Registry.Overlord.Spawn` | src/lib.rs:72-74 | `spawn` enqueues exactly one `Spawn` at the back of the channel; the visible list is unchanged until the actor runs |
| `Registry.Overlord.ActorStep` | src/lib.rs:45-50 | receiving a `Spawn` appends exactly its record at the end of the list and drops it from the channel |
| `Registry.Overlord.Quit` | src/lib.rs:67-70 | after `quit` joins the actor, the list is the old list followed by every pending spawned record, in order |
| `Registry.ActorStepKeepsOutcome` | src/lib.rs:45-50 | however the actor's steps interleave with the caller, the final list after `quit` is the same |
| `Registry.ObservedIsPrefix` | src/lib.rs:46-50 | any list a caller observes mid-flight is a prefix of the final list |
| `Registry.QuitFresh` | src/lib.rs:93-98 | quitting a registry with no spawns leaves a list of length 0 |
| `Registry.SpawnThenQuit` | src/lib.rs:101-113 | one spawn then quit leaves exactly that record: the actor does not launch it or change its fields |

## Left out

- OS process spawning, pipes, `try_wait` and `ExitStatus`: replaced by the
  pid and outcome inputs of `Supervisor.Run` and `Polling.Poll`.
- Spawn failure: `cmd.spawn().expect(...)` panics the supervisor thread
  while it holds the record's lock, poisoning the `Mutex`. The model treats
  every spawn as successful and has no transition for it.
- Relaying stdout and stderr lines (`BufReader::lines`, process.rs:159-173):
  this is line-buffered OS I/O. Only the stdin queue is modelled.
- Sleeps: the 10 ms poll interval and the `restart_delay` wait. The delay is
  kept as a stored field only. The timing-based test (process.rs:266-277)
  has no counterpart.
- Threads, `Arc<Mutex<..>>`, `mpsc` channels and join handles. Records are
  plain values, and the registry is a command sequence. The list really
  holds shared handles (`Vec<Arc<Process>>`), so any other holder, such as
  a caller that launched a clone, can change a listed record in place;
  that aliasing is not modelled.
- `Supervisor.Supervise`: it consumes runs one at a time and does not
  connect `Polling.Monitor`'s stdin queue across restarts. The stdin
  channel is modelled for a single run's poll loop only.
- `Polling.Monitor`: the stdin queue is fixed when the loop starts, so
  messages sent on the public `stdin` sender while the loop runs are not
  modelled; the stdout/stderr reads that precede the stdin hand-over in
  each iteration (and block until the child closes stdout) are left out;
  the code never calls `flush`: the `BufWriter` passes bytes on only when
  a write overflows its 8 KiB buffer or when it is dropped at the next
  spawn (the leftover then goes to the exited child's pipe), and the model
  does not say when the child sees a handed-over message.
- Panics from `.unwrap()`/`.expect()` on channels, locks and stdio I/O
  (process.rs:162, 170, 179): a failed read, a non-UTF-8 line or a failed
  stdin write ends supervision with the record's fields left `Running`
  and, since each happens while the record's lock is held, its `Mutex`
  poisoned; none of these is modelled. The logging macros are left out too. The
  empty-argument panic of `launch` is modelled.
- `Supervisor.FromArgv`: its precondition bars a delay without a directory,
  because the macro has no such arm.
- `Supervisor.CommandFor`: its precondition bars an empty argument vector,
  because `args[1..]` panics there.

=== FILE: base.dfy ===
/** Shared building blocks: Rust's `Option` and the fixed-width integer
    types the supervisor's record uses (`u32` pids, `u64` counters and
    delays, `i32` exit codes). */
module Base {

  /** Rust's `Option<T>`. */
  datatype Option<+T> = None | Some(value: T)

  /** `Option::unwrap_or`: the wrapped value, or `default` when there is none. */
  function UnwrapOr<T>(o: Option<T>, default: T): T
  {
    match o
    case Some(x) => x
    case None => default
  }

  /** An OS process identifier (`u32`). */
  type u32 = x: int | 0 <= x < 0x1_0000_0000

  /** Counters and millisecond delays (`u64`). */
  type u64 = x: int | 0 <= x < 0x1_0000_0000_0000_0000

  /** A process exit code (`i32`). */
  type i32 = x: int | -0x8000_0000 <= x < 0x8000_0000
}

=== FILE: polling.dfy ===
/** The inner poll loop of `launch` in `src/process.rs`: every iteration
    hands at most one queued stdin message to the child's buffered stdin
    writer and then asks the OS whether the child is still alive; the loop
    ends at the first answer that is not "still running". The 10 ms sleep
    and the stdout and stderr relay are left out; the OS answers and the
    queue of messages waiting when the loop starts are inputs. */
module Polling {
  import opened Base
  import opened Supervisor

  /** One answer of the non-blocking status query. */
  datatype Poll = StillRunning | Finished(outcome: Outcome)

  /** The state of the poll loop after it stopped or ran out of answers:
      the outcome it broke with (if any), the iterations it performed, the
      stdin messages handed to the child's buffered writer, and those still
      queued. */
  datatype Watch = Watch(outcome: Option<Outcome>, iterations: nat,
                         written: seq<string>, queued: seq<string>)

  function Min(a: nat, b: nat): (m: nat)
    ensures m <= a && m <= b && (m == a || m == b)
  {
    if a <= b then a else b
  }

  /** The poll loop over the answers `polls`, with `inbox` the messages
      waiting on the stdin channel. */
  function Monitor(polls: seq<Poll>, inbox: seq<string>): (w: Watch)
    decreases |polls|
    ensures w.iterations <= |polls|
    ensures w.written + w.queued == inbox
    ensures |w.written| == Min(w.iterations, |inbox|)
    ensures forall i :: 0 <= i < w.iterations - 1 ==> polls[i].StillRunning?
    ensures w.outcome.Some? ==> w.iterations > 0 && polls[w.iterations - 1] == Finished(w.outcome.value)
    ensures w.outcome.None? ==> w.iterations == |polls| && forall i :: 0 <= i < |polls| ==> polls[i].StillRunning?
  {
    if |polls| == 0 then Watch(None, 0, [], inbox)
    else
      var sent := if |inbox| > 0 then inbox[..1] else [];
      var rest := if |inbox| > 0 then inbox[1..] else inbox;
      match polls[0]
      case Finished(o) => Watch(Some(o), 1, sent, rest)
      case StillRunning =>
        var w := Monitor(polls[1..], rest);
        Watch(w.outcome, w.iterations + 1, sent + w.written, w.queued)
  }

  /** The loop breaks exactly at the first `Finished` answer, so later
      answers are never asked for. */
  lemma MonitorStopsAtFirstFinish(polls: seq<Poll>, inbox: seq<string>, i: nat)
    requires i < |polls| && polls[i].Finished?
    requires forall j :: 0 <= j < i ==> polls[j].StillRunning?
    ensures Monitor(polls, inbox).outcome == Some(polls[i].outcome)
    ensures Monitor(polls, inbox).iterations == i + 1
  {
  }
}

=== FILE: registry.dfy ===
/** The registry actor of `src/lib.rs` (`Overlord`): a dedicated thread
    receives commands in submission order, appends every spawned record to
    the shared process list, and stops at `Quit`. The channel is a sequence
    of commands and the shared list a plain sequence of records. */
module Registry {
  import opened Supervisor

  /** The messages the actor receives. */
  datatype Command = Spawn(process: Record) | Quit

  /** The list after the actor's loop consumed its input, and whether the
      loop terminated on a `Quit`. */
  datatype Drained = Drained(processes: seq<Record>, stopped: bool)

  /** The actor's receive loop over the commands `cmds`, starting from the
      list `list`. */
  function Receive(list: seq<Record>, cmds: seq<Command>): (d: Drained)
    decreases |cmds|
    ensures |d.processes| >= |list| && d.processes[..|list|] == list
    ensures d.stopped <==> exists i :: 0 <= i < |cmds| && cmds[i].Quit?
    ensures |d.processes| <= |list| + |cmds|
  {
    if |cmds| == 0 then Drained(list, false)
    else
      match cmds[0]
      case Quit => Drained(list, true)
      case Spawn(p) => Receive(list + [p], cmds[1..])
  }

  /** Reference definitions: the position of the first `Quit` (or the
      length when there is none) ... */
  function FirstQuit(cmds: seq<Command>): (k: nat)
    ensures k <= |cmds|
    ensures forall i :: 0 <= i < k ==> cmds[i].Spawn?
    ensures k < |cmds| ==> cmds[k].Quit?
  {
    if |cmds| == 0 || cmds[0].Quit? then 0 else 1 + FirstQuit(cmds[1..])
  }

  /** ... and the records carried by the `Spawn` commands, in order. Built
      from the back of the sequence, unlike `Receive`, so that it serves as
      an independent reference for `ReceiveIsFifo` and `Overlord.Quit`;
      `PayloadsCons` relates the two directions of construction. */
  function Payloads(cmds: seq<Command>): (ps: seq<Record>)
    ensures |ps| <= |cmds|
  {
    if |cmds| == 0 then []
    else
      var last := cmds[|cmds| - 1];
      Payloads(cmds[..|cmds| - 1]) + (if last.Spawn? then [last.process] else [])
  }

  lemma {:induction false} PayloadsCons(c: Command, cmds: seq<Command>)
    ensures Payloads([c] + cmds) == (if c.Spawn? then [c.process] else []) + Payloads(cmds)
    decreases |cmds|
  {
    if |cmds| > 0 {
      var all := [c] + cmds;
      assert all[..|all| - 1] == [c] + cmds[..|cmds| - 1];
      PayloadsCons(c, cmds[..|cmds| - 1]);
    } else {
      assert [c] + cmds == [c];
      assert [c][..0] == [];
    }
  }

  /** FIFO: the actor leaves exactly the records of the `Spawn` commands
      before the first `Quit` appended to the list, in submission order;
      nothing else is added, dropped, reordered or altered. */
  lemma {:induction false} ReceiveIsFifo(list: seq<Record>, cmds: seq<Command>)
    ensures Receive(list, cmds).processes == list + Payloads(cmds[..FirstQuit(cmds)])
    decreases |cmds|
  {
    if |cmds| == 0 {
      assert cmds[..0] == [];
    } else if cmds[0].Quit? {
      assert cmds[..0] == [];
    } else {
      var k := FirstQuit(cmds);
      assert cmds[..k] == [cmds[0]] + cmds[1..][..k - 1];
      PayloadsCons(cmds[0], cmds[1..][..k - 1]);
      ReceiveIsFifo(list + [cmds[0].process], cmds[1..]);
    }
  }

  /** Commands behind the first `Quit` are never received. */
  lemma {:induction false} QuitIsFinal(list: seq<Record>, before: seq<Command>, after: seq<Command>)
    ensures Receive(list, before + [Quit] + after) == Receive(list, before + [Quit])
    decreases |before|
  {
    if |before| == 0 {
      assert (before + [Quit] + after)[0] == Quit;
      assert (before + [Quit])[0] == Quit;
    } else {
      assert (before + [Quit] + after)[0] == before[0];
      assert (before + [Quit])[0] == before[0];
      assert (before + [Quit] + after)[1..] == before[1..] + [Quit] + after;
      assert (before + [Quit])[1..] == before[1..] + [Quit];
      match before[0]
      case Quit =>
      case Spawn(p) => QuitIsFinal(list + [p], before[1..], after);
    }
  }

  /** The handle `Overlord::new` returns, together with what the actor has
      done so far: commands sent but not yet received, and the shared list. */
  datatype Overlord = Overlord(channel: seq<Command>, processes: seq<Record>) {

    /** Only `spawn` can put a command on the channel of a live handle:
        `quit` consumes the handle. */
    predicate Live() {
      forall i :: 0 <= i < |channel| ==> channel[i].Spawn?
    }

    /** `Overlord::spawn`: enqueue without waiting for the actor. */
    function Spawn(p: Record): (o: Overlord)
      ensures o.channel == channel + [Command.Spawn(p)]
      ensures o.processes == processes
      ensures Live() ==> o.Live()
    {
      Overlord(channel + [Command.Spawn(p)], processes)
    }

    /** The actor receiving the oldest pending command, whenever its thread
        gets to run. */
    function ActorStep(): (o: Overlord)
      requires Live() && |channel| > 0
      ensures o.Live()
      ensures o.channel == channel[1..]
      ensures o.processes == processes + [channel[0].process]
    {
      Overlord(channel[1..], Receive(processes, channel[..1]).processes)
    }

    /** `Overlord::quit`: send `Quit`, then join the actor. The result is the
        list once the actor has terminated. */
    function Quit(): (final: seq<Record>)
      requires Live()
      ensures final == processes + Payloads(channel)
    {
      ReceiveIsFifo(processes, channel + [Command.Quit]);
      assert FirstQuit(channel + [Command.Quit]) == |channel| by {
        var all := channel + [Command.Quit];
        assert forall i :: 0 <= i < |channel| ==> all[i].Spawn?;
        assert all[|channel|].Quit?;
      }
      assert (channel + [Command.Quit])[..|channel|] == channel;
      Receive(processes, channel + [Command.Quit]).processes
    }
  }

  /** `Overlord::new`: the actor is waiting and the list is empty. */
  function New(): (o: Overlord)
    ensures o.Live() && o.processes == [] && o.channel == []
  {
    Overlord([], [])
  }

  /** Whenever the actor thread happens to run, the list that `quit`
      leaves behind is the same: only the moment a spawned record becomes
      visible depends on scheduling, never the final contents. */
  lemma ActorStepKeepsOutcome(o: Overlord)
    requires o.Live() && |o.channel| > 0
    ensures o.ActorStep().Quit() == o.Quit()
  {
    var c := o.channel;
    assert c == [c[0]] + c[1..];
    PayloadsCons(c[0], c[1..]);
  }

  /** What callers observe mid-flight is always a prefix of the final list. */
  lemma ObservedIsPrefix(o: Overlord)
    requires o.Live()
    ensures |o.processes| <= |o.Quit()| && o.Quit()[..|o.processes|] == o.processes
  {
  }

  /** Quitting a fresh registry leaves an empty list. */
  lemma QuitFresh()
    ensures |New().Quit()| == 0
  {
  }

  /** One spawn on a fresh registry, then quit: the list holds exactly that
      record, as it was submitted (the actor does not launch it). */
  lemma SpawnThenQuit(p: Record)
    ensures New().Spawn(p).Quit() == [p]
  {
  }
}

=== FILE: supervisor.dfy ===
/** The per-process supervisor of `src/process.rs`: the process record, its
    construction, the OS invocation it describes, and the restart-or-fail
    policy of the `launch` loop, with threads, locks, pipes and sleeps
    abstracted away. The OS is an input: each run of the child is given as
    the pid the spawn returned and the outcome the status query observed. */
module Supervisor {
  import opened Base

  /** Lifecycle states. `Starting` exists but no transition assigns it. */
  datatype State = Stopped | Starting | Running | Restarting | Failed

  /** Restart budget every defined process gets; not configurable at
      definition time (tests overwrite the public field afterwards). */
  const DEFAULT_MAX_RESTART_COUNT: u64 := 5

  /** The observable fields of `_Process`. The stdio channels, buffered
      readers/writers, child handle and thread handle are plumbing and are
      not part of the record. */
  datatype Record = Record(
    name: string,
    path: string,
    args: seq<string>,
    restartDelay: u64,
    cwd: Option<string>,
    state: State,
    exitStatus: Option<i32>,
    restartCount: u64,
    maxRestartCount: u64,
    pid: Option<u32>)

  /** The budget invariant: no more restarts than allowed. */
  predicate WithinBudget(r: Record) {
    r.restartCount <= r.maxRestartCount
  }

  /** The fields fixed at definition time (and the budget) agree. */
  predicate SameDefinition(r: Record, r': Record) {
    && r'.name == r.name
    && r'.path == r.path
    && r'.args == r.args
    && r'.restartDelay == r.restartDelay
    && r'.cwd == r.cwd
    && r'.maxRestartCount == r.maxRestartCount
  }

  /** `define_process`: a fresh, never launched record. */
  function Define(name: string, path: string, args: seq<string>,
                  restartDelay: Option<u64>, cwd: Option<string>): (r: Record)
    ensures r.name == name && r.path == path && r.args == args && r.cwd == cwd
    ensures restartDelay.Some? ==> r.restartDelay == restartDelay.value
    ensures restartDelay.None? ==> r.restartDelay == 0
    ensures r.state == Stopped && r.exitStatus == None && r.pid == None
    ensures r.restartCount == 0 && r.maxRestartCount == 5
    ensures WithinBudget(r)
  {
    Record(name, path, args, UnwrapOr(restartDelay, 0), cwd,
           Stopped, None, 0, DEFAULT_MAX_RESTART_COUNT, None)
  }

  /** The `from_argv!` macro: `argv[0]` is both the display name and the
      executable path, and the whole vector is kept as the argument list.
      The macro's three arms are `(argv)`, `(argv, cwd)` and
      `(argv, cwd, delay)`, so a delay never comes without a directory. */
  function FromArgv(argv: seq<string>, cwd: Option<string>, restartDelay: Option<u64>): (r: Record)
    requires |argv| > 0
    requires restartDelay.Some? ==> cwd.Some?
    ensures r.name == argv[0] && r.path == argv[0] && r.args == argv && r.cwd == cwd
    ensures r.restartDelay == UnwrapOr(restartDelay, 0)
    ensures r.state == Stopped && r.restartCount == 0 && r.maxRestartCount == DEFAULT_MAX_RESTART_COUNT
  {
    Define(argv[0], argv[0], argv, restartDelay, cwd)
  }

  /** What `launch` hands to the OS: program, arguments and working directory. */
  datatype Invocation = Invocation(program: string, args: seq<string>, cwd: Option<string>)

  /** The `process::Command` built at the top of each launch iteration. The
      first argument is the conventional program name and is not passed on;
      slicing `args[1..]` panics on an empty argument vector, hence the
      precondition. */
  function CommandFor(r: Record): (inv: Invocation)
    requires |r.args| >= 1
    ensures inv.program == r.path
    ensures inv.cwd == r.cwd
    ensures [r.args[0]] + inv.args == r.args
  {
    Invocation(r.path, r.args[1..], r.cwd)
  }

  /** A successful spawn: the record is `Running` under the new pid and
      nothing else about it changes. Spawn failure is left out. */
  function Started(r: Record, pid: u32): (r': Record)
    ensures r'.state == Running && r'.pid == Some(pid)
    ensures SameDefinition(r, r')
    ensures r'.exitStatus == r.exitStatus && r'.restartCount == r.restartCount
  {
    r.(state := Running, pid := Some(pid))
  }

  /** What the status query reports once the poll loop stops: the child
      exited (with a code, or `None` when a signal killed it), or the query
      itself failed. */
  datatype Outcome = Exited(code: Option<i32>) | WaitError

  /** The decision at the end of one run: a wait error fails the record;
      an exit, whatever its code, is recorded and then restarts the record
      while budget remains and fails it otherwise. */
  function OnOutcome(r: Record, o: Outcome): (r': Record)
    ensures SameDefinition(r, r') && r'.pid == r.pid
    ensures r'.state == Failed || r'.state == Restarting
    ensures r'.state == Restarting <==> o.Exited? && r.restartCount < r.maxRestartCount
    ensures r'.state == Restarting ==> r'.restartCount == r.restartCount + 1
    ensures r'.state == Failed ==> r'.restartCount == r.restartCount
    ensures o.Exited? ==> r'.exitStatus == o.code
    ensures o.WaitError? ==> r'.exitStatus == r.exitStatus
    ensures WithinBudget(r) ==> WithinBudget(r')
  {
    match o
    case WaitError => r.(state := Failed)
    case Exited(code) =>
      var exited := r.(exitStatus := code);
      if exited.restartCount >= exited.maxRestartCount then
        exited.(state := Failed)
      else
        exited.(restartCount := exited.restartCount + 1, state := Restarting)
  }

  /** One run of the child as the OS reports it. */
  datatype Run = Run(pid: u32, outcome: Outcome)

  /** Where `launch` is after consuming some runs: the record, how many
      times it spawned the child, the command it handed to the OS for each
      spawn, and whether its thread panicked before spawning. */
  datatype Supervision = Supervision(record: Record, spawns: nat,
                                     commands: seq<Invocation>, panicked: bool)

  /** The `launch` loop: spawn, observe the outcome, decide; stop at `Failed`.
      When the runs are used up without failing, the loop would sleep and
      spawn again, so the record is left `Restarting`. Building the command
      slices `args[1..]` before every spawn, which panics on an empty
      argument vector: the thread then dies with the record untouched and
      nothing spawned. */
  function Supervise(r: Record, runs: seq<Run>): (s: Supervision)
    decreases |runs|
    ensures s.spawns <= |runs|
    ensures |s.commands| == s.spawns
    ensures s.spawns > 0 ==> |r.args| > 0 && forall i :: 0 <= i < |s.commands| ==> s.commands[i] == CommandFor(r)
    ensures SameDefinition(r, s.record)
    ensures s.panicked <==> |r.args| == 0
    ensures s.panicked ==> s.spawns == 0 && s.record == r
    ensures s.spawns == 0 ==> s.record == r
    ensures s.spawns < |runs| ==> s.record.state == Failed || s.panicked
    ensures s.spawns > 0 ==> s.record.state == Failed || s.record.state == Restarting
    ensures s.spawns > 0 ==> s.record.pid == Some(runs[s.spawns - 1].pid)
    ensures s.spawns > 0 ==>
      s.record.restartCount + (if s.record.state == Failed then 1 else 0) == r.restartCount + s.spawns
    ensures WithinBudget(r) ==> WithinBudget(s.record)
    ensures WithinBudget(r) ==> s.spawns <= r.maxRestartCount - r.restartCount + 1
    ensures forall k :: 0 <= k < s.spawns - 1 ==> runs[k].outcome.Exited?
    ensures s.spawns > 0 && s.record.state == Failed ==>
      runs[s.spawns - 1].outcome.WaitError? || s.record.restartCount >= s.record.maxRestartCount
    ensures s.spawns > 0 && runs[s.spawns - 1].outcome.Exited? ==>
      s.record.exitStatus == runs[s.spawns - 1].outcome.code
  {
    if |r.args| == 0 then Supervision(r, 0, [], true)
    else if |runs| == 0 then Supervision(r, 0, [], false)
    else
      var command := CommandFor(r);
      var decided := OnOutcome(Started(r, runs[0].pid), runs[0].outcome);
      if decided.state == Failed then Supervision(decided, 1, [command], false)
      else
        var rest := Supervise(decided, runs[1..]);
        Supervision(rest.record, rest.spawns + 1, [command] + rest.commands, rest.panicked)
  }

  /** An empty argument vector: whatever the OS would offer, `launch`
      panics before the first spawn and the record stays as it was. */
  lemma EmptyArgsPanics(r: Record, runs: seq<Run>)
    requires |r.args| == 0
    ensures Supervise(r, runs) == Supervision(r, 0, [], true)
  {
  }

  /** `Failed` is terminal: once `launch` has failed the record, further
      runs offered by the OS are never consumed. */
  lemma {:induction false} FailedIsTerminal(r: Record, runs: seq<Run>, more: seq<Run>)
    requires Supervise(r, runs).spawns > 0
    requires Supervise(r, runs).record.state == Failed
    ensures Supervise(r, runs + more) == Supervise(r, runs)
    decreases |runs|
  {
    var decided := OnOutcome(Started(r, runs[0].pid), runs[0].outcome);
    assert (runs + more)[0] == runs[0];
    if decided.state != Failed {
      assert (runs + more)[1..] == runs[1..] + more;
      FailedIsTerminal(decided, runs[1..], more);
    }
  }

  /** A wait error ends supervision no later than the run it happens in,
      whatever budget is left. */
  lemma {:induction false} WaitErrorStops(r: Record, runs: seq<Run>, i: nat)
    requires i < |runs| && runs[i].outcome == WaitError
    ensures Supervise(r, runs).spawns <= i + 1
    ensures |r.args| > 0 ==> Supervise(r, runs).record.state == Failed
    decreases |runs|
  {
    var decided := OnOutcome(Started(r, runs[0].pid), runs[0].outcome);
    if |r.args| > 0 && decided.state != Failed {
      assert i > 0;
      WaitErrorStops(decided, runs[1..], i - 1);
    }
  }

  /** With a spawnable argument vector, only exits observed and enough
      runs, the budget is used up exactly: the child is spawned `maxRestartCount - restartCount + 1`
      times, the record ends `Failed` with the full count and the last
      exit recorded. */
  lemma {:induction false} BudgetExhausted(r: Record, runs: seq<Run>)
    requires |r.args| > 0
    requires WithinBudget(r)
    requires |runs| > r.maxRestartCount - r.restartCount
    requires forall i :: 0 <= i < |runs| ==> runs[i].outcome.Exited?
    ensures Supervise(r, runs).spawns == r.maxRestartCount - r.restartCount + 1
    ensures Supervise(r, runs).record.state == Failed
    ensures Supervise(r, runs).record.restartCount == r.maxRestartCount
    ensures Supervise(r, runs).record.exitStatus == runs[r.maxRestartCount - r.restartCount].outcome.code
    decreases |runs|
  {
    var decided := OnOutcome(Started(r, runs[0].pid), runs[0].outcome);
    if decided.state != Failed {
      assert forall i :: 0 <= i < |runs[1..]| ==> runs[1..][i] == runs[i + 1];
      BudgetExhausted(decided, runs[1..]);
    }
  }

  /** The exit code never influences the decision: code 0, any other code
      and a signal kill restart or fail the record alike. */
  lemma ExitCodeIrrelevant(r: Record, a: Option<i32>, b: Option<i32>)
    ensures OnOutcome(r, Exited(a)).state == OnOutcome(r, Exited(b)).state
    ensures OnOutcome(r, Exited(a)).(exitStatus := b) == OnOutcome(r, Exited(b))
  {
  }

  /** A defined process is spawned at most `maxRestartCount + 1` times over
      any sequence of runs, and `launch` never puts it back into `Stopped`
      nor into `Starting`. */
  lemma DefinedSpawnBound(name: string, path: string, args: seq<string>,
                          restartDelay: Option<u64>, cwd: Option<string>, runs: seq<Run>)
    ensures Supervise(Define(name, path, args, restartDelay, cwd), runs).spawns <= DEFAULT_MAX_RESTART_COUNT + 1
    ensures Supervise(Define(name, path, args, restartDelay, cwd), runs).spawns > 0 ==>
      Supervise(Define(name, path, args, restartDelay, cwd), runs).record.state !in {Stopped, Starting}
  {
  }

  /** `from_argv!` round trip: the OS sees `argv[0]` as the program and the
      rest of `argv` as its arguments, and the record is named `argv[0]`. */
  lemma FromArgvInvocation(argv: seq<string>, cwd: Option<string>, restartDelay: Option<u64>)
    requires |argv| > 0
    requires restartDelay.Some? ==> cwd.Some?
    ensures FromArgv(argv, cwd, restartDelay).name == argv[0]
    ensures CommandFor(FromArgv(argv, cwd, restartDelay)).program == argv[0]
    ensures [argv[0]] + CommandFor(FromArgv(argv, cwd, restartDelay)).args == argv
    ensures CommandFor(FromArgv(argv, cwd, restartDelay)).cwd == cwd
  {
  }

  /** Running `false` (exit code 1) with the budget set to 0: the exit is
      recorded, no restart is attempted, and the record fails after one
      spawn whatever the OS would offer later. */
  lemma FalseWithoutRetries(pid: u32, later: seq<Run>)
    ensures Supervise(FromArgv(["false"], None, None).(maxRestartCount := 0),
                      [Run(pid, Exited(Some(1)))] + later)
         == Supervision(FromArgv(["false"], None, None).(maxRestartCount := 0, state := Failed,
                                                          exitStatus := Some(1), pid := Some(pid)),
                        1, [Invocation("false", [], None)], false)
  {
  }
}
